=== FILE: README.md ===
# Synapse: a Dafny model of rupert's Kafka consumer/producer core

`rupert.py` defines `Synapse`, a small runtime that event-driven "synapses"
derive from. It loads a JSON settings file and merges the `kafka.connection`
and `kafka.consumer` sections into a consumer configuration. `listen(topic)`
opens a consumer on the physical topic that `kafka.topics` maps the logical
name to. It then polls in a loop and hands every good message to the
overridable `process_event` hook, until the `close_consumer` flag is seen at
the top of an iteration. `send(topic, payload)` produces one record through a
fresh producer configured from the connection section alone. `stop()` raises
the flag and `reload()` re-reads the settings file. A Flask route `event`
builds a synapse and sends each action of an action profile, in order.

The model is split into one module per concern:

- `Json` (json.dfy): parsed JSON values, and Python's subscript `v[k]` on them,
  with the exceptions it raises (`KeyError`, `IndexError`, `TypeError`).
- `Utf8` (utf8.dfy): strict UTF-8 well-formedness (section 4 of RFC 3629).
  This is what `bytes.decode('utf-8')` in the default `process_event` checks.
- `Settings` (settings.dfy): the dict union behind `consumer_cfg` (PEP 584),
  the section lookups, and topic resolution.
- `Polling` (polling.dfy): the `listen` loop as a function of the poll
  outcomes, for any `process_event` hook whose outcome depends only on the
  payload. `DefaultHook` is the base class's own hook.
- `Producing` (producing.dfy): what one `send` does.
- `Machine` (machine.dfy): the five fields of a `Synapse` as a value, what
  each operation does to them, and the phases Idle, Opened, Listening and
  Stopped.
- `Synapses` (synapse.dfy): the `Synapse` class. `Listen`, `ProcessEvent`,
  `Reload` and `Stop` update its fields in place; `Create` builds a fresh
  synapse; `Send` reads the settings and changes nothing.
  `Create`, `Listen`, `ProcessEvent`, `Reload` and `Stop` are proved against
  the matching function of `Machine`; `Send` is proved against
  `Producing.SendResult`.
- `Route` (route.dfy): the `event` route's loop over the actions.

The environment appears as parameters:

- what loading a file yields: a `Result<Value, Error>`, where a failure stands
  for a missing file or bad JSON;
- the sequence of poll outcomes the broker returns;
- how each `produce` call ends;
- the encoding that `json.dumps` performs.

## Behaviour the model follows

- The code builds the consumer (rupert.py:47) before it looks up the topic
  (rupert.py:48). An unknown logical topic therefore raises `KeyError` after
  `self.consumer` already holds an open consumer that never subscribed. This
  is the `Opened` phase.
- `listen` builds its consumer from `consumer_cfg`, which is merged once, in
  the constructor (rupert.py:31). A `reload` changes the topics that later
  `listen` and `send` calls resolve. It does not change the consumer
  configuration, even when the reloaded file's sections differ: the next
  `listen` builds its consumer from the `consumer_cfg` merged at construction.
- `send` can raise at the `['connection']` and `['topics']` lookups, which
  the model keeps. Of the Kafka client's own exceptions, the model keeps only
  those of `produce`: a full queue (`BufferError`) or a client error
  (`KafkaException`). `send` registers no delivery callback, so delivery
  reports are never inspected, and the model's `send` succeeds once `produce`
  has queued the record.
- The default `process_event` decodes the payload as UTF-8 before it calls
  `stop()`. A message without a value, or with malformed UTF-8, makes it
  raise. That ends `listen` with the exception: the flag stays down and the
  consumer is not closed.
- `stop()` before the first poll, or a hook that calls `stop()`, closes the
  consumer at the next loop check, and nothing more is polled. The process
  then exits; the model records this as `Exit.Exited`.

## Model

| member | source | states |
|---|---|---|
| `Json.Subscript` | rupert.py:48 | `v[k]` on a JSON value. On an object, a string key gives the field or `KeyError(k)`, a number, bool or null key is `KeyError(k)`, and a list or object key is `TypeError`. On a list or a string, an integer (or bool) key succeeds exactly for `-len <= k < len` and gives element `k`, counted from the end when negative (a one-character string for a string); out of range is `IndexError`; any other key is `TypeError`. Any other container raises `TypeError` |
| `Json.Field` | rupert.py:31 | `v['name']` succeeds exactly when `v` is an object holding `name` and gives that field; otherwise `KeyError` for an object and `TypeError` for anything else |
| `Utf8.AsciiWellFormed` | rupert.py:73 | every ASCII payload decodes, so the default hook never raises on one |
| `Utf8.StrayContinuationRejected` | rupert.py:73 | a payload that starts with a continuation byte does not decode |
| `Settings.Merge` | rupert.py:31 | dict union: the keys of both operands, with the right operand's value on a collision and the left one's elsewhere |
| `Settings.ConsumerConfigMerges` | rupert.py:31 | `consumer_cfg` has exactly the keys of `connection` plus those of `consumer`; the `consumer` value wins on a shared key |
| `Settings.ConsumerConfigFails` | rupert.py:31 | the merge fails exactly when a section is missing or is not an object. A failed `connection` lookup is the error reported; otherwise a failed `consumer` lookup is; with both sections present, operands that are not both objects raise `TypeError` |
| `Settings.ResolveDeclared` | rupert.py:48 | a declared logical name resolves to exactly its physical topic; an undeclared one is a `KeyError` naming it |
| `Settings.EchoKeepsSections` | rupert.py:30-31 | echoing `settings_file` into the document changes no `kafka` lookup |
| `Polling.RunDispatch` | rupert.py:49-59 | no more polls than given; the hook receives every non-error message of the polls made, exactly once and in poll order; error messages are never dispatched and are logged in order |
| `Polling.RunStops` | rupert.py:49-59 | the flag is checked before each poll: with the flag up nothing is polled; the hook returned normally on all but the last payload; after the hook calls `stop()` or raises, no further poll; running out of polls means every hook call returned normally |
| `Polling.DefaultHandlesAtMostOne` | rupert.py:73-75 | with the base class's hook, only the first non-error message is handled; the consumer is closed exactly when it decodes (or the flag was up); the loop runs out of polls only if none arrived |
| `Producing.SendResult` | rupert.py:100-101 | `send` succeeds exactly when the connection section and the topic resolve and `produce` queues the record. The record is the connection section, the resolved physical topic and the payload. Failures come in source order: connection lookup, then topic lookup, then `BufferError` or `KafkaException` |
| `Producing.UnknownTopicNeverProduces` | rupert.py:100-101 | an unknown logical topic fails at the lookup whatever `produce` would do |
| `Producing.ProducerIgnoresConsumerSection` | rupert.py:100 | in any settings document, whatever its other top-level keys (`settings_file` included), the `kafka.consumer` section has no effect on a send |
| `Machine.Init` | rupert.py:18-33 | construction succeeds exactly for an object document with mergeable sections. `settings['settings_file']` is then the path, every other key is kept and no other key is added, `consumer_cfg` is the merge, there is no consumer and the flag is down (phase Idle). A failed load or a non-object document raises, and a failed merge raises the merge's own `KeyError` or `TypeError` |
| `Machine.StopState` | rupert.py:106-108 | `stop()` raises the flag and changes no other field |
| `Machine.StopIdempotent` | rupert.py:106-108 | calling `stop()` twice equals calling it once |
| `Machine.Reloaded` | rupert.py:78-83 | `reload()` replaces `settings` wholesale with the loaded document and changes no other field (`consumer_cfg` included); a failed load changes nothing |
| `Machine.ReloadForgetsSettingsFile` | rupert.py:83 | after reloading a document without `settings_file`, looking that key up raises `KeyError` |
| `Machine.ReloadThenLookups` | rupert.py:47-48 | after a reload, `listen` subscribes to the topic the new document names but builds its consumer from the old `consumer_cfg`; `send` resolves against the new document |
| `Machine.ReloadSwitchesSubscription` | rupert.py:48 | `topics.in` changed from `a` to `b` by a reload: `listen("in")` subscribes to `b` |
| `Machine.ListenPhases` | rupert.py:47-59 | `listen` keeps `settings` and `consumer_cfg`. An unknown topic leaves an opened, unsubscribed consumer and no poll. Otherwise the consumer subscribes to the resolved topic and serves exactly the loop's polls, and it is Stopped exactly when the loop saw the flag |
| `Machine.StopThenListen` | rupert.py:49-52 | `stop()` before `listen`: the consumer is closed before any poll and nothing is handled |
| `Machine.ListenHandlesAtMostOne` | rupert.py:73-75 | a `listen` with the default hook handles at most the first non-error message; the consumer is closed exactly when that message decodes or the flag was up |
| `Machine.ConstructThenSend` | rupert.py:100-101 | the settings example with `in`/`out` topics: `consumer_cfg` is `{group.id: g}`; `send("out")` produces to `topic-out` with the empty connection map, raises `BufferError` on a full queue, and a `KeyError` for an unknown name |
| `Synapses.Synapse.constructor` | rupert.py:27-33 | field initialisation: the given settings and configuration, no consumer, flag down |
| `Synapses.Synapse.Create` | rupert.py:18-33 | construction yields a fresh synapse whose fields are `Machine.Init`'s state, or raises `Machine.Init`'s error |
| `Synapses.Synapse.Listen` | rupert.py:36-59 | the fields after `listen` and its outcome are `Machine.Listened` of the fields before |
| `Synapses.Synapse.PollLoop` | rupert.py:49-59 | the loop's outcome is `Polling.Run` with the default hook; the consumer has served that many polls and is closed, with the flag up, exactly when the loop exited on the flag |
| `Synapses.Synapse.ProcessEvent` | rupert.py:62-75 | raises exactly when the payload does not decode, and then changes nothing; otherwise the fields become `Machine.StopState` of the old ones |
| `Synapses.Synapse.Reload` | rupert.py:78-83 | the fields become `Machine.Reloaded` of the old ones; a failed load is reported |
| `Synapses.Synapse.Send` | rupert.py:87-103 | returns `Producing.SendResult` for the current settings and changes nothing |
| `Synapses.Synapse.Stop` | rupert.py:106-108 | the fields become `Machine.StopState` of the old ones |
| `Route.ActionList` | rupert.py:137-138 | a missing `actions` (or a profile that is not an object) raises the lookup's error. A list is iterated as is; an empty object or string iterates nothing. A non-empty object or string raises `TypeError` at `action['topic']` before any send, and a number, bool or null is not iterable (`TypeError`) |
| `Route.SendAllInOrder` | rupert.py:137-138 | one send per action, in list order; the i-th record is the i-th action's send; a request that ends early ends at the first action whose send raised, with all earlier ones sent |
| `Route.EventSendsInOrder` | rupert.py:133-138 | a request whose settings and profile load sends the actions in order against the synapse's settings, and all of them exactly when none raised |
| `Route.SendActionDelivers` | rupert.py:138 | a sent action's record carries the physical topic of its `topic`, its encoded `action`, and the connection section as producer configuration |
| `Route.Event` | rupert.py:133-139 | the request's sends and its exception are `Route.EventResult` of what loading the settings and the profile yields |
| `Route.SendActions` | rupert.py:137-138 | the route's loop returns `Route.SendAll` for the synapse's settings |

## Left out

- Confluent Kafka client: building `Consumer` and `Producer`, subscribe
  semantics, the poll timeout, `producer.poll(10000)`, `flush` and delivery
  reports are foreign library calls, and so are `Producer` construction
  errors (an invalid configuration property). Polls are an input sequence, and each
  `produce` outcome is an input. A `TypeError` the client raises for a
  non-object configuration or a non-string topic is not modelled.
- The endless `while True` of `listen`: the model is given a finite sequence
  of poll outcomes. When they run out while the loop is still running, the
  run ends with `Exit.Horizon`.
- File reading and JSON parsing in `__load_settings` and `load_json`
  (rupert.py:113-129): their results are inputs. JSON floating-point numbers
  are not modelled; numbers are integers.
- `json.dumps` of an action (rupert.py:138) is an uninterpreted encoding
  function, given as a parameter.
- Flask routing, `markupsafe.escape`, the profile path built from the URL, and
  the returned confirmation text (rupert.py:133-139).
- `sys.exit` (rupert.py:52), and the payload `print` and `time.sleep`
  (rupert.py:73-74): no timing and no payload output. The exit is the
  terminal `Exit.Exited` outcome. The broker errors printed at rupert.py:57
  are kept, in poll order, as `Polling.LoopEnd.logged`.
- `@beartype`: the model's types state what it enforces (`listen`'s topic and
  the settings path are strings).
- Settings.ConsumerConfig: Python's `|` on two JSON integers or booleans is a
  bitwise or and does not raise. The model treats every operand pair other
  than two objects as a `TypeError`.
- Synapses.Synapse.Listen: the consumer handle is a value owned by the
  synapse, not a shared object. A consumer left open by an earlier `listen`
  that raised is replaced without being closed, and that leak is not tracked.
- Subclasses overriding `process_event`: `Polling.Run` and its lemmas hold for
  any hook whose outcome (return, call `stop()`, or raise) depends only on the
  payload it is given. A hook that keeps state between calls, such as one that
  calls `stop()` after the third message or raises on a repeated payload, is
  not covered. The class itself runs the base class's hook, which is
  stateless. A hook's other side effects, such as calling `send`, are not
  modelled.
- Concurrency: none. The core is single-threaded.

=== FILE: json.dfy ===
/** JSON documents as `json.loads` returns them, and Python's subscript
    operator `v[k]` on such values, with the exceptions it raises. */
module Json {
  import opened Wrappers

  /** A parsed JSON value (numbers are integers here: floats are not modelled). */
  datatype Value =
    | Null
    | Bool(b: bool)
    | Num(n: int)
    | Str(s: string)
    | Array(items: seq<Value>)
    | Object(fields: map<string, Value>)

  /** The exceptions the core can raise: the built-in ones raised by a
      subscript and the two that
      `Producer.produce` raises (`BufferError` when the local queue is full,
      `KafkaException` for every other client error). */
  datatype Error =
    | KeyError(key: Value)
    | IndexError
    | TypeError
    | BufferError
    | KafkaException

  /** The integer a key stands for when it indexes a list or a string
      (`bool` is a subclass of `int` in Python). */
  function IntKey(key: Value): Option<int> {
    match key
    case Num(n) => Some(n)
    case Bool(b) => Some(if b then 1 else 0)
    case _ => None
  }

  /** Python's index normalisation: `-(len as int) <= n < len`, negatives count from the end. */
  function Position(n: int, len: nat): (r: Option<nat>)
    ensures r.Some? <==> -(len as int) <= n < len
    ensures r.Some? ==> r.value < len && (r.value == n || r.value == n + len)
  {
    if -(len as int) <= n < len then Some(if n < 0 then n + len else n) else None
  }

  /** `container[key]` for JSON values. A dict looks the key up by equality
      (JSON object keys are strings, so a number, boolean or null key is
      simply missing) and refuses an unhashable key; a list or a string is
      indexed by an integer; nothing else is subscriptable. */
  function Subscript(container: Value, key: Value): (r: Result<Value, Error>)
    ensures container.Object? && key.Str? ==>
      r == if key.s in container.fields then Success(container.fields[key.s]) else Failure(KeyError(key))
    ensures container.Array? && IntKey(key).Some? ==>
      (r.Success? <==> -|container.items| <= IntKey(key).value < |container.items|)
    ensures container.Array? && r.Success? ==>
      (IntKey(key).Some? &&
       var n := IntKey(key).value; r.value == container.items[if n < 0 then n + |container.items| else n])
    ensures container.Array? && IntKey(key).None? ==> r == Failure(TypeError)
    ensures container.Object? && (key.Num? || key.Bool? || key.Null?) ==> r == Failure(KeyError(key))
    ensures container.Object? && (key.Array? || key.Object?) ==> r == Failure(TypeError)
    ensures container.Str? && IntKey(key).None? ==> r == Failure(TypeError)
    ensures container.Str? && IntKey(key).Some? ==>
      (r.Success? <==> -|container.s| <= IntKey(key).value < |container.s|)
    ensures container.Str? && r.Success? ==>
      (IntKey(key).Some? &&
       var n := IntKey(key).value; r.value == Str([container.s[if n < 0 then n + |container.s| else n]]))
    ensures (container.Array? || container.Str?) && r.Failure? && IntKey(key).Some? ==> r.error == IndexError
    ensures !(container.Object? || container.Array? || container.Str?) ==> r == Failure(TypeError)
  {
    match container
    case Object(fields) =>
      if key.Array? || key.Object? then Failure(TypeError)
      else if key.Str? && key.s in fields then Success(fields[key.s])
      else Failure(KeyError(key))
    case Array(items) =>
      (match IntKey(key)
       case None => Failure(TypeError)
       case Some(n) =>
         (match Position(n, |items|)
          case None => Failure(IndexError)
          case Some(i) => Success(items[i])))
    case Str(s) =>
      (match IntKey(key)
       case None => Failure(TypeError)
       case Some(n) =>
         (match Position(n, |s|)
          case None => Failure(IndexError)
          case Some(i) => Success(Str([s[i]]))))
    case _ => Failure(TypeError)
  }

  /** `v['name']`: a string key, as every lookup in the settings uses.
      It succeeds exactly on an object holding the name; a missing name is a
      KeyError and a value that is not an object a TypeError. */
  function Field(v: Value, name: string): (r: Result<Value, Error>)
    ensures r.Success? <==> v.Object? && name in v.fields
    ensures r.Success? ==> r.value == v.fields[name]
    ensures r.Failure? ==> r.error == if v.Object? then KeyError(Str(name)) else TypeError
  {
    Subscript(v, Str(name))
  }
}

=== FILE: machine.dfy ===
/** The state of a `Synapse` as a value, and what each of its operations
    does to it. The class in module Synapses is proved against these. */
module Machine {
  import opened Wrappers
  import opened Json
  import opened Settings
  import opened Polling
  import Producing

  /** A consumer handle as far as the core sees it: the configuration it was
      built from, the topic it subscribed to, how many polls it has served,
      and whether it was closed. */
  datatype ConsumerHandle = ConsumerHandle(config: map<string, Value>, subscription: Option<Value>, polls: nat, closed: bool)

  /** The fields of a `Synapse`: `settings_file`, `settings`, `consumer_cfg`,
      `consumer` and `close_consumer`. */
  datatype SynapseState = SynapseState(
    settingsFile: string,
    settings: Value,
    consumerCfg: map<string, Value>,
    consumer: Option<ConsumerHandle>,
    closeConsumer: bool)

  /** Idle: no consumer yet. Opened: a consumer was built but the topic
      lookup after it failed, so it never subscribed. Listening: subscribed
      and open. Stopped: closed, the process exits. */
  datatype Phase = Idle | Opened | Listening | Stopped

  function PhaseOf(s: SynapseState): Phase {
    match s.consumer
    case None => Idle
    case Some(h) => if h.closed then Stopped else if h.subscription.None? then Opened else Listening
  }

  /** `Synapse(settings_file)`, given what loading the file yields: the
      document gets `settings_file` echoed into it, then the consumer
      configuration is merged; there is no consumer yet and the flag is down. */
  function Init(settingsFile: string, loaded: Result<Value, Error>): (r: Result<SynapseState, Error>)
    ensures r.Success? <==> loaded.Success? && loaded.value.Object? && ConsumerConfig(loaded.value).Success?
    ensures r.Success? ==>
      && r.value.settingsFile == settingsFile
      && Field(r.value.settings, SettingsFileKey) == Success(Str(settingsFile))
      && Success(r.value.consumerCfg) == ConsumerConfig(loaded.value)
      && r.value.consumer == None
      && !r.value.closeConsumer
      && PhaseOf(r.value) == Idle
    ensures r.Success? ==> forall k :: k in loaded.value.fields && k != SettingsFileKey ==>
      Field(r.value.settings, k) == Success(loaded.value.fields[k])
    ensures r.Success? ==>
      r.value.settings.Object? && r.value.settings.fields.Keys == loaded.value.fields.Keys + {SettingsFileKey}
    ensures loaded.Success? && loaded.value.Object? && ConsumerConfig(loaded.value).Failure? ==>
      r == Failure(ConsumerConfig(loaded.value).error)
    ensures loaded.Failure? ==> r == Failure(loaded.error)
    ensures loaded.Success? && !loaded.value.Object? ==> r == Failure(TypeError)
  {
    var doc :- loaded;
    if !doc.Object? then Failure(TypeError)
    else
      var settings := Object(doc.fields[SettingsFileKey := Str(settingsFile)]);
      EchoKeepsSections(doc.fields, settingsFile, "connection");
      EchoKeepsSections(doc.fields, settingsFile, "consumer");
      var cfg :- ConsumerConfig(settings);
      Success(SynapseState(settingsFile, settings, cfg, None, false))
  }

  /** `stop()`: raises the flag and changes nothing else. */
  function StopState(s: SynapseState): (r: SynapseState)
    ensures r.closeConsumer
    ensures r.(closeConsumer := s.closeConsumer) == s
  {
    s.(closeConsumer := true)
  }

  /** `reload()`, given what re-reading the settings file yields: the whole
      document replaces `settings`; nothing else changes. A failed load
      raises before the assignment and leaves everything as it was. */
  function Reloaded(s: SynapseState, loaded: Result<Value, Error>): (r: SynapseState)
    ensures loaded.Success? ==> r.settings == loaded.value && r.(settings := s.settings) == s
    ensures loaded.Failure? ==> r == s
  {
    if loaded.Success? then s.(settings := loaded.value) else s
  }

  /** `listen(topic)` over the given polls, with the base class's
      `process_event`: a consumer is built from `consumer_cfg` and stored,
      then the topic is looked up (an unknown one raises, leaving that
      consumer unsubscribed), then the loop runs. */
  function Listened(s: SynapseState, topic: string, polls: seq<PollOutcome>): (SynapseState, Result<LoopEnd, Error>) {
    var handle := ConsumerHandle(s.consumerCfg, None, 0, false);
    match ResolveTopic(s.settings, Str(topic))
    case Failure(e) => (s.(consumer := Some(handle)), Failure(e))
    case Success(physical) =>
      var e := Run(polls, s.closeConsumer, DefaultHook);
      var stopped := e.exit == Exited;
      (s.(consumer := Some(ConsumerHandle(s.consumerCfg, Some(physical), e.polled, stopped)), closeConsumer := stopped),
       Success(e))
  }

  /** `listen` on a topic that resolves: the consumer subscribes, and the
      loop's outcome decides whether it is closed and the flag is up. */
  lemma ListenedResolved(s: SynapseState, topic: string, polls: seq<PollOutcome>)
    requires ResolveTopic(s.settings, Str(topic)).Success?
    ensures var e := Run(polls, s.closeConsumer, DefaultHook);
      var physical := ResolveTopic(s.settings, Str(topic)).value;
      Listened(s, topic, polls) ==
        (s.(consumer := Some(ConsumerHandle(s.consumerCfg, Some(physical), e.polled, e.exit == Exited)),
            closeConsumer := e.exit == Exited),
         Success(e))
  {
  }

  /** Calling `stop()` twice is calling it once. */
  lemma StopIdempotent(s: SynapseState)
    ensures StopState(StopState(s)) == StopState(s)
  {
  }

  /** Phases of `listen`: an unknown topic leaves an opened, unsubscribed
      consumer and no poll; otherwise the consumer subscribes to the resolved
      topic with `consumer_cfg`, and it is closed — the Stopped phase —
      exactly when the loop saw the flag; a loop that ran out of polls or
      whose hook raised is still Listening. */
  lemma ListenPhases(s: SynapseState, topic: string, polls: seq<PollOutcome>)
    ensures var (t, r) := Listened(s, topic, polls);
      && t.settings == s.settings && t.consumerCfg == s.consumerCfg && t.settingsFile == s.settingsFile
      && t.consumer.Some? && t.consumer.value.config == s.consumerCfg
      && (r.Failure? <==> ResolveTopic(s.settings, Str(topic)).Failure?)
      && (r.Failure? ==> PhaseOf(t) == Opened && t.consumer.value.polls == 0 && t.closeConsumer == s.closeConsumer)
      && (r.Success? ==> t.consumer.value.subscription == Some(ResolveTopic(s.settings, Str(topic)).value))
      && (r.Success? ==> t.consumer.value.polls == r.value.polled <= |polls|)
      && (r.Success? ==> (PhaseOf(t) == Stopped <==> r.value.exit == Exited))
      && (r.Success? && r.value.exit != Exited ==> PhaseOf(t) == Listening)
  {
    var e := Run(polls, s.closeConsumer, DefaultHook);
    RunDispatch(polls, s.closeConsumer, DefaultHook);
    RunStops(polls, s.closeConsumer, DefaultHook);
  }

  /** `stop()` before `listen`: the flag is seen before the first poll, so
      the consumer subscribes, is closed, and nothing is polled or handled. */
  lemma StopThenListen(s: SynapseState, topic: string, polls: seq<PollOutcome>)
    requires ResolveTopic(s.settings, Str(topic)).Success?
    ensures var (t, r) := Listened(StopState(s), topic, polls);
      && r == Success(LoopEnd(Exited, 0, [], []))
      && PhaseOf(t) == Stopped
      && t.consumer.value.polls == 0
  {
  }

  /** A listen with the base class's hook handles at most the first
      non-error message, and the consumer is closed exactly when that
      message decodes (or the flag was already up). */
  lemma ListenHandlesAtMostOne(s: SynapseState, topic: string, polls: seq<PollOutcome>)
    requires ResolveTopic(s.settings, Str(topic)).Success?
    ensures var (t, r) := Listened(s, topic, polls);
      && r.value.dispatched == (if s.closeConsumer || Goods(polls) == [] then [] else [Goods(polls)[0]])
      && (PhaseOf(t) == Stopped <==> s.closeConsumer || (Goods(polls) != [] && Decodes(Goods(polls)[0])))
  {
    DefaultHandlesAtMostOne(polls, s.closeConsumer);
  }

  /** After a reload that drops `settings_file`, looking it up raises. */
  lemma ReloadForgetsSettingsFile(s: SynapseState, fields: map<string, Value>)
    requires SettingsFileKey !in fields
    ensures Field(Reloaded(s, Success(Object(fields))).settings, SettingsFileKey) == Failure(KeyError(Str(SettingsFileKey)))
  {
  }

  /** After a reload, `listen` and `send` resolve topics in the new document,
      but the consumer is still built from the `consumer_cfg` merged at
      construction, even when the new document's sections differ. */
  lemma ReloadThenLookups(s: SynapseState, doc: Value, topic: string, polls: seq<PollOutcome>,
                          sendTopic: Value, payload: seq<bv8>, verdict: Producing.ProduceVerdict)
    requires ResolveTopic(doc, Str(topic)).Success?
    ensures var (t, _) := Listened(Reloaded(s, Success(doc)), topic, polls);
      && t.consumer.value.subscription == Some(ResolveTopic(doc, Str(topic)).value)
      && t.consumer.value.config == s.consumerCfg
    ensures Producing.SendResult(Reloaded(s, Success(doc)).settings, sendTopic, payload, verdict)
         == Producing.SendResult(doc, sendTopic, payload, verdict)
  {
  }

  /** A settings document whose `topics` maps `in` to `a`, then one that maps
      it to `b`: after the reload, `listen("in")` subscribes to `b`. */
  lemma ReloadSwitchesSubscription(s: SynapseState, polls: seq<PollOutcome>)
    requires s.settings == Object(map["kafka" := Object(map["topics" := Object(map["in" := Str("a")])])])
    ensures Listened(s, "in", polls).0.consumer.value.subscription == Some(Str("a"))
    ensures var doc := Object(map["kafka" := Object(map["topics" := Object(map["in" := Str("b")])])]);
      Listened(Reloaded(s, Success(doc)), "in", polls).0.consumer.value.subscription == Some(Str("b"))
  {
  }

  /** Settings whose connection section is empty, whose consumer section
      sets `group.id`, and whose topics map `in` and `out`: the consumer
      configuration is the consumer section, and `send("out", payload)`
      produces the payload to `topic-out` with an empty producer
      configuration, or raises when `produce` does. */
  lemma ConstructThenSend(path: string, payload: seq<bv8>)
    ensures var doc := Object(map["kafka" := Object(map[
                "connection" := Object(map[]),
                "consumer" := Object(map["group.id" := Str("g")]),
                "topics" := Object(map["in" := Str("topic-in"), "out" := Str("topic-out")])])]);
      var s := Init(path, Success(doc));
      && s.Success?
      && s.value.consumerCfg == map["group.id" := Str("g")]
      && Producing.SendResult(s.value.settings, Str("out"), payload, Producing.Enqueued)
           == Success(Producing.Delivery(Object(map[]), Str("topic-out"), payload))
      && Producing.SendResult(s.value.settings, Str("out"), payload, Producing.QueueFull) == Failure(BufferError)
      && Producing.SendResult(s.value.settings, Str("nope"), payload, Producing.Enqueued) == Failure(KeyError(Str("nope")))
  {
    var doc := Object(map["kafka" := Object(map[
                "connection" := Object(map[]),
                "consumer" := Object(map["group.id" := Str("g")]),
                "topics" := Object(map["in" := Str("topic-in"), "out" := Str("topic-out")])])]);
    var s := Init(path, Success(doc));
    assert map[] + map["group.id" := Str("g")] == map["group.id" := Str("g")];
    EchoKeepsSections(doc.fields, path, "topics");
  }
}

=== FILE: polling.dfy ===
/** The body of `Synapse.listen` as a function of what the broker returns:
    the shutdown flag is read at the top of every iteration, before the poll;
    an empty poll does nothing; an error message is logged; any other
    message is handed to the `process_event` hook, one at a time, in order.
    The hook is what subclasses override, so the loop is given here for any
    hook whose outcome depends only on the payload; `DefaultHook` is the base
    class's own. */
module Polling {
  import opened Wrappers
  import Utf8

  /** `msg.value()`: a message's payload, absent for a message without one. */
  type Payload = Option<Utf8.Bytes>

  /** What one `consumer.poll(1.0)` returns. */
  datatype PollOutcome = NoMsg | ErrMsg(error: string) | Msg(value: Payload)

  /** How a call of the hook ends: it returns, it returns after calling
      `stop()`, or it raises (which ends `listen` with the exception). */
  datatype HookResult = Continue | RequestStop | Raise

  /** How the loop ends: the flag was seen and the consumer closed (the
      process then exits); the polls the model was given ran out while the
      loop was still running; or the hook raised. */
  datatype Exit = Exited | Horizon | Raised

  /** What a run of the loop did: how it ended, how many polls it made, the
      payloads handed to the hook and the broker errors it printed. */
  datatype LoopEnd = LoopEnd(exit: Exit, polled: nat, dispatched: seq<Payload>, logged: seq<string>)

  /** `value().decode('utf-8')` succeeds. */
  predicate Decodes(p: Payload) {
    p.Some? && Utf8.WellFormed(p.value)
  }

  /** The default `process_event`: decode and print the payload, sleep, then
      `stop()`. The decode raises on an absent or malformed payload, before
      `stop()` is reached. */
  function DefaultHook(p: Payload): HookResult {
    if Decodes(p) then RequestStop else Raise
  }

  /** The loop, from a given value of the shutdown flag, over the polls still
      to come. The hook's outcome is a function of the payload alone. */
  function Run(polls: seq<PollOutcome>, flag: bool, hook: Payload -> HookResult): LoopEnd
    decreases |polls|
  {
    if flag then LoopEnd(Exited, 0, [], [])
    else if polls == [] then LoopEnd(Horizon, 0, [], [])
    else
      match polls[0]
      case NoMsg => Prefixed(1, [], [], Run(polls[1..], flag, hook))
      case ErrMsg(e) => Prefixed(1, [], [e], Run(polls[1..], flag, hook))
      case Msg(p) =>
        match hook(p)
        case Continue => Prefixed(1, [p], [], Run(polls[1..], flag, hook))
        case RequestStop => Prefixed(1, [p], [], Run(polls[1..], true, hook))
        case Raise => LoopEnd(Raised, 1, [p], [])
  }

  /** One iteration of the loop at poll `i`, with the flag down, seen from
      the polls and the results gathered before it. */
  lemma Advance(polls: seq<PollOutcome>, i: nat, d: seq<Payload>, l: seq<string>, hook: Payload -> HookResult)
    requires i < |polls|
    ensures Prefixed(i, d, l, Run(polls[i..], false, hook)) ==
      match polls[i]
      case NoMsg => Prefixed(i + 1, d, l, Run(polls[i + 1..], false, hook))
      case ErrMsg(e) => Prefixed(i + 1, d, l + [e], Run(polls[i + 1..], false, hook))
      case Msg(p) =>
        match hook(p)
        case Continue => Prefixed(i + 1, d + [p], l, Run(polls[i + 1..], false, hook))
        case RequestStop => Prefixed(i + 1, d + [p], l, Run(polls[i + 1..], true, hook))
        case Raise => LoopEnd(Raised, i + 1, d + [p], l)
  {
    var rest := polls[i + 1..];
    assert polls[i..][1..] == rest;
    match polls[i]
    case NoMsg =>
      PrefixedAssoc(i, d, l, 1, [], [], Run(rest, false, hook));
    case ErrMsg(e) =>
      PrefixedAssoc(i, d, l, 1, [], [e], Run(rest, false, hook));
    case Msg(p) =>
      match hook(p)
      case Continue =>
        PrefixedAssoc(i, d, l, 1, [p], [], Run(rest, false, hook));
      case RequestStop =>
        PrefixedAssoc(i, d, l, 1, [p], [], Run(rest, true, hook));
      case Raise =>
  }

  /** A run `e` preceded by `polled` polls that dispatched `dispatched` and logged `logged`. */
  function Prefixed(polled: nat, dispatched: seq<Payload>, logged: seq<string>, e: LoopEnd): LoopEnd {
    LoopEnd(e.exit, polled + e.polled, dispatched + e.dispatched, logged + e.logged)
  }

  /** Prefixing twice is prefixing once with the sums and the concatenations:
      the loop's accumulated counts can be pushed one poll at a time. */
  lemma PrefixedAssoc(p: nat, d: seq<Payload>, l: seq<string>, q: nat, d': seq<Payload>, l': seq<string>, e: LoopEnd)
    ensures Prefixed(p, d, l, Prefixed(q, d', l', e)) == Prefixed(p + q, d + d', l + l', e)
  {
    assert d + (d' + e.dispatched) == (d + d') + e.dispatched;
    assert l + (l' + e.logged) == (l + l') + e.logged;
  }

  /** The payloads of the non-error messages, in poll order. */
  function Goods(polls: seq<PollOutcome>): seq<Payload> {
    if polls == [] then []
    else if polls[0].Msg? then [polls[0].value] + Goods(polls[1..])
    else Goods(polls[1..])
  }

  /** The errors of the error messages, in poll order. */
  function Failures(polls: seq<PollOutcome>): seq<string> {
    if polls == [] then []
    else if polls[0].ErrMsg? then [polls[0].error] + Failures(polls[1..])
    else Failures(polls[1..])
  }

  lemma FirstOfPrefix(polls: seq<PollOutcome>, k: nat)
    requires 0 < k <= |polls|
    ensures Goods(polls[..k]) == (if polls[0].Msg? then [polls[0].value] else []) + Goods(polls[1..][..k - 1])
    ensures Failures(polls[..k]) == (if polls[0].ErrMsg? then [polls[0].error] else []) + Failures(polls[1..][..k - 1])
  {
    assert polls[..k][1..] == polls[1..][..k - 1];
  }

  /** Dispatch: the loop makes no more polls than it is given; the hook gets
      every non-error message of the polls made, exactly once and in order,
      and never an error message, which is logged instead, also in order. */
  lemma {:induction false} RunDispatch(polls: seq<PollOutcome>, flag: bool, hook: Payload -> HookResult)
    ensures Run(polls, flag, hook).polled <= |polls|
    ensures Run(polls, flag, hook).dispatched == Goods(polls[..Run(polls, flag, hook).polled])
    ensures Run(polls, flag, hook).logged == Failures(polls[..Run(polls, flag, hook).polled])
    decreases |polls|
  {
    var e := Run(polls, flag, hook);
    if flag || polls == [] {
      assert polls[..0] == [];
    } else if polls[0].Msg? && hook(polls[0].value) == Raise {
      FirstOfPrefix(polls, 1);
      assert polls[1..][..0] == [];
    } else {
      var stops := polls[0].Msg? && hook(polls[0].value) == RequestStop;
      RunDispatch(polls[1..], stops, hook);
      FirstOfPrefix(polls, e.polled);
    }
  }

  /** Termination: the hook returned normally on every payload but the
      last; a loop started with the flag up polls nothing; a loop that ran
      out of polls saw only normal returns; and a loop that ends because the
      hook raised or called `stop()` ends right after the poll that brought
      that payload — no further poll. */
  lemma {:induction false} RunStops(polls: seq<PollOutcome>, flag: bool, hook: Payload -> HookResult)
    ensures forall j :: 0 <= j < |Run(polls, flag, hook).dispatched| - 1 ==>
      hook(Run(polls, flag, hook).dispatched[j]) == Continue
    ensures flag ==> Run(polls, flag, hook) == LoopEnd(Exited, 0, [], [])
    ensures Run(polls, flag, hook).exit == Horizon ==>
      !flag && Run(polls, flag, hook).polled == |polls| &&
      (forall p :: p in Run(polls, flag, hook).dispatched ==> hook(p) == Continue)
    ensures Run(polls, flag, hook).exit == Raised ==>
      var e := Run(polls, flag, hook);
      0 < e.polled <= |polls| && e.dispatched != [] && hook(e.dispatched[|e.dispatched| - 1]) == Raise &&
      polls[e.polled - 1] == Msg(e.dispatched[|e.dispatched| - 1])
    ensures Run(polls, flag, hook).exit == Exited && !flag ==>
      var e := Run(polls, flag, hook);
      0 < e.polled <= |polls| && e.dispatched != [] && hook(e.dispatched[|e.dispatched| - 1]) == RequestStop &&
      polls[e.polled - 1] == Msg(e.dispatched[|e.dispatched| - 1])
    decreases |polls|
  {
    if !flag && polls != [] && !(polls[0].Msg? && hook(polls[0].value) == Raise) {
      var stops := polls[0].Msg? && hook(polls[0].value) == RequestStop;
      RunStops(polls[1..], stops, hook);
      RunDispatch(polls[1..], stops, hook);
    }
  }

  /** With the base class's hook at most one message is handled: the loop
      stops at the first non-error message. If it decodes, the hook calls
      `stop()` and the next iteration closes the consumer; if it does not,
      the hook raises. A loop started with the flag set handles nothing. */
  lemma {:induction false} DefaultHandlesAtMostOne(polls: seq<PollOutcome>, flag: bool)
    ensures var e := Run(polls, flag, DefaultHook);
      e.dispatched == (if flag || Goods(polls) == [] then [] else [Goods(polls)[0]])
    ensures var e := Run(polls, flag, DefaultHook);
      e.exit == Exited <==> flag || (Goods(polls) != [] && Decodes(Goods(polls)[0]))
    ensures var e := Run(polls, flag, DefaultHook);
      e.exit == Horizon <==> !flag && Goods(polls) == []
    decreases |polls|
  {
    if !flag && polls != [] {
      if !polls[0].Msg? {
        DefaultHandlesAtMostOne(polls[1..], flag);
      } else if DefaultHook(polls[0].value) == RequestStop {
        assert Goods(polls)[0] == polls[0].value;
      }
    }
  }
}

=== FILE: producing.dfy ===
/** `Synapse.send`: build a producer from the connection section, resolve
    the logical topic, and produce the payload to it. */
module Producing {
  import opened Wrappers
  import opened Json
  import opened Settings
  import Utf8

  /** How `producer.produce` ends: the record is queued, the local queue is
      full (`BufferError`), or the client refuses it (`KafkaException`). */
  datatype ProduceVerdict = Enqueued | QueueFull | Refused

  /** A record handed to the client: the producer's configuration, the
      physical topic and the payload. */
  datatype Delivery = Delivery(producerConfig: Value, topic: Value, payload: Utf8.Bytes)

  /** What one `send(topic, payload)` does, given how `produce` ends. The
      lookups happen in the source's order: connection section, then topic. */
  function SendResult(settings: Value, topic: Value, payload: Utf8.Bytes, verdict: ProduceVerdict): (r: Result<Delivery, Error>)
    ensures r.Success? <==>
      ConnectionConfig(settings).Success? && ResolveTopic(settings, topic).Success? && verdict == Enqueued
    ensures r.Success? ==>
      r.value == Delivery(ConnectionConfig(settings).value, ResolveTopic(settings, topic).value, payload)
    ensures ConnectionConfig(settings).Failure? ==> r == Failure(ConnectionConfig(settings).error)
    ensures ConnectionConfig(settings).Success? && ResolveTopic(settings, topic).Failure? ==>
      r == Failure(ResolveTopic(settings, topic).error)
    ensures ConnectionConfig(settings).Success? && ResolveTopic(settings, topic).Success? ==>
      (verdict == QueueFull ==> r == Failure(BufferError)) && (verdict == Refused ==> r == Failure(KafkaException))
  {
    var connection :- ConnectionConfig(settings);
    var physical :- ResolveTopic(settings, topic);
    match verdict
    case Enqueued => Success(Delivery(connection, physical, payload))
    case QueueFull => Failure(BufferError)
    case Refused => Failure(KafkaException)
  }

  /** An unknown logical topic fails at the lookup: whatever the broker
      would have said is never asked. */
  lemma UnknownTopicNeverProduces(settings: Value, topic: Value, payload: Utf8.Bytes, v: ProduceVerdict, w: ProduceVerdict)
    requires ResolveTopic(settings, topic).Failure?
    ensures SendResult(settings, topic, payload, v) == SendResult(settings, topic, payload, w)
    ensures SendResult(settings, topic, payload, v).Failure?
  {
  }

  /** The producer is configured from the connection section only: the
      consumer section plays no part in a send. */
  lemma ProducerIgnoresConsumerSection(top: map<string, Value>, kafka: map<string, Value>, consumer: Value, topic: Value, payload: Utf8.Bytes, v: ProduceVerdict)
    ensures SendResult(Object(top["kafka" := Object(kafka["consumer" := consumer])]), topic, payload, v)
         == SendResult(Object(top["kafka" := Object(kafka - {"consumer"})]), topic, payload, v)
  {
    assert Section(Object(top["kafka" := Object(kafka["consumer" := consumer])]), "connection")
        == Section(Object(top["kafka" := Object(kafka - {"consumer"})]), "connection");
    assert Section(Object(top["kafka" := Object(kafka["consumer" := consumer])]), "topics")
        == Section(Object(top["kafka" := Object(kafka - {"consumer"})]), "topics");
  }
}

=== FILE: route.dfy ===
/** The `event` HTTP route: build a synapse from the fixed settings path,
    load the action profile, and send each action to its topic in list
    order. The route's confirmation text is not modelled. */
module Route {
  import opened Wrappers
  import opened Json
  import opened Machine
  import opened Producing
  import opened Synapses
  import Settings
  import Utf8

  /** The settings path the route builds its synapse from. */
  const SettingsPath := "/web/cfg/settings.json"

  /** What a request did: the records handed to the client, in order, and
      the exception that ended it early, if any. */
  datatype EventReport = EventReport(sent: seq<Delivery>, failure: Option<Error>)

  /** `for action in action_profile['actions']`: the items of a list; an
      empty object or string gives no iteration, while a non-empty one yields
      a string whose `['topic']` raises TypeError before any send; any other
      value is not iterable. */
  function ActionList(profile: Value): (r: Result<seq<Value>, Error>)
    ensures r.Success? ==> Field(profile, "actions").Success?
    ensures Field(profile, "actions").Failure? ==> r == Failure(Field(profile, "actions").error)
    ensures Field(profile, "actions").Success? ==>
      var actions := Field(profile, "actions").value;
      && (r.Success? <==>
            actions.Array? || (actions.Object? && |actions.fields| == 0) || (actions.Str? && |actions.s| == 0))
      && (r.Failure? ==> r.error == TypeError)
      && (r.Success? && !actions.Array? ==> r.value == [])
    ensures Field(profile, "actions").Success? && Field(profile, "actions").value.Array? ==>
      r == Success(Field(profile, "actions").value.items)
  {
    var actions :- Field(profile, "actions");
    match actions
    case Array(items) => Success(items)
    case Object(fields) => if |fields| == 0 then Success([]) else Failure(TypeError)
    case Str(s) => if |s| == 0 then Success([]) else Failure(TypeError)
    case _ => Failure(TypeError)
  }

  /** One iteration: `send(action['topic'], json.dumps(action['action']))`,
      the two lookups in that order. */
  function SendAction(settings: Value, action: Value, encode: Value -> Utf8.Bytes, verdict: ProduceVerdict): Result<Delivery, Error> {
    var topic :- Field(action, "topic");
    var body :- Field(action, "action");
    SendResult(settings, topic, encode(body), verdict)
  }

  /** The loop over the actions from the `k`-th send on, where `step(a, n)`
      is what the `n`-th send, for action `a`, does: it stops at the first
      exception. */
  function SendAll(actions: seq<Value>, step: (Value, nat) -> Result<Delivery, Error>, k: nat): EventReport
    decreases |actions|
  {
    if actions == [] then EventReport([], None)
    else
      match step(actions[0], k)
      case Failure(e) => EventReport([], Some(e))
      case Success(d) =>
        var rest := SendAll(actions[1..], step, k + 1);
        EventReport([d] + rest.sent, rest.failure)
  }

  /** The route's sends: the `n`-th one, for action `a`, against `settings`. */
  function RouteStep(settings: Value, encode: Value -> Utf8.Bytes, verdictAt: nat -> ProduceVerdict): (Value, nat) -> Result<Delivery, Error> {
    (a: Value, n: nat) => SendAction(settings, a, encode, verdictAt(n))
  }

  /** The whole request. */
  function EventResult(settingsDoc: Result<Value, Error>, profileDoc: Result<Value, Error>,
                       encode: Value -> Utf8.Bytes, verdictAt: nat -> ProduceVerdict): EventReport
  {
    match Init(SettingsPath, settingsDoc)
    case Failure(e) => EventReport([], Some(e))
    case Success(s) =>
      match profileDoc
      case Failure(e) => EventReport([], Some(e))
      case Success(profile) =>
        match ActionList(profile)
        case Failure(e) => EventReport([], Some(e))
        case Success(actions) => SendAll(actions, RouteStep(s.settings, encode, verdictAt), 0)
  }

  /** One send per action, in list order: the i-th record is what the i-th
      action's send produced. A request that ends early ends at the first
      action whose send raised, after all earlier ones went out; otherwise
      every action was sent. */
  lemma {:induction false} SendAllInOrder(actions: seq<Value>, step: (Value, nat) -> Result<Delivery, Error>, k: nat)
    ensures var r := SendAll(actions, step, k);
      && |r.sent| <= |actions|
      && (forall i :: 0 <= i < |r.sent| ==> step(actions[i], k + i) == Success(r.sent[i]))
      && (r.failure.None? ==> |r.sent| == |actions|)
      && (r.failure.Some? ==>
            |r.sent| < |actions| && step(actions[|r.sent|], k + |r.sent|) == Failure(r.failure.value))
    decreases |actions|
  {
    if actions != [] {
      var head := step(actions[0], k);
      var r := SendAll(actions, step, k);
      if head.Success? {
        var rest := SendAll(actions[1..], step, k + 1);
        SendAllInOrder(actions[1..], step, k + 1);
        forall i | 0 < i < |r.sent|
          ensures step(actions[i], k + i) == Success(r.sent[i])
        {
          var j := i - 1;
          assert step(actions[1..][j], k + 1 + j) == Success(rest.sent[j]);
          assert actions[1..][j] == actions[i] && k + 1 + j == k + i && rest.sent[j] == r.sent[i];
        }
        if r.failure.Some? {
          assert actions[|r.sent|] == actions[1..][|rest.sent|];
        }
      }
    }
  }

  /** A request whose synapse, profile and action list all load makes one
      send per action, in list order, against the synapse's settings: the
      i-th record is the i-th action's payload, encoded, produced to the
      physical topic its `topic` names. */
  lemma EventSendsInOrder(settingsDoc: Result<Value, Error>, profile: Value,
                          encode: Value -> Utf8.Bytes, verdictAt: nat -> ProduceVerdict)
    requires Init(SettingsPath, settingsDoc).Success? && ActionList(profile).Success?
    ensures var settings := Init(SettingsPath, settingsDoc).value.settings;
      var actions := ActionList(profile).value;
      var r := EventResult(settingsDoc, Success(profile), encode, verdictAt);
      && |r.sent| <= |actions|
      && (forall i :: 0 <= i < |r.sent| ==> SendAction(settings, actions[i], encode, verdictAt(i)) == Success(r.sent[i]))
      && (r.failure.None? <==> |r.sent| == |actions|)
  {
    var settings := Init(SettingsPath, settingsDoc).value.settings;
    var actions := ActionList(profile).value;
    var step := RouteStep(settings, encode, verdictAt);
    var r := EventResult(settingsDoc, Success(profile), encode, verdictAt);
    assert r == SendAll(actions, step, 0);
    SendAllInOrder(actions, step, 0);
    forall i | 0 <= i < |r.sent|
      ensures SendAction(settings, actions[i], encode, verdictAt(i)) == Success(r.sent[i])
    {
      assert step(actions[i], 0 + i) == Success(r.sent[i]);
    }
  }

  /** What a successful send of one action is: the action's `action`,
      encoded, produced to the physical topic of its `topic`, with the
      connection section as producer configuration. */
  lemma SendActionDelivers(settings: Value, action: Value, encode: Value -> Utf8.Bytes, verdict: ProduceVerdict, d: Delivery)
    requires SendAction(settings, action, encode, verdict) == Success(d)
    ensures Field(action, "topic").Success? && Field(action, "action").Success?
    ensures d.topic == Settings.ResolveTopic(settings, Field(action, "topic").value).value
    ensures d.payload == encode(Field(action, "action").value)
    ensures d.producerConfig == Settings.ConnectionConfig(settings).value
  {
  }

  /** A report `r` preceded by the records `sent` that earlier sends handed over. */
  function Preceded(sent: seq<Delivery>, r: EventReport): EventReport {
    EventReport(sent + r.sent, r.failure)
  }

  /** One iteration of the route's loop, at action `i`. */
  lemma SendAllStep(actions: seq<Value>, step: (Value, nat) -> Result<Delivery, Error>, i: nat, sent: seq<Delivery>)
    requires i < |actions|
    ensures Preceded(sent, SendAll(actions[i..], step, i)) ==
      match step(actions[i], i)
      case Failure(e) => EventReport(sent, Some(e))
      case Success(d) => Preceded(sent + [d], SendAll(actions[i + 1..], step, i + 1))
  {
    assert actions[i..][1..] == actions[i + 1..];
    var rest := SendAll(actions[i + 1..], step, i + 1);
    if step(actions[i], i).Success? {
      assert sent + ([step(actions[i], i).value] + rest.sent) == (sent + [step(actions[i], i).value]) + rest.sent;
    }
  }

  /** `event(event_type, name, action_profile)`, given what loading the
      settings and the action profile yield, the encoding `json.dumps`
      stands for, and how each send's `produce` ends. */
  method Event(settingsDoc: Result<Value, Error>, profileDoc: Result<Value, Error>,
               encode: Value -> Utf8.Bytes, verdictAt: nat -> ProduceVerdict) returns (report: EventReport)
    ensures report == EventResult(settingsDoc, profileDoc, encode, verdictAt)
  {
    var created := Synapse.Create(SettingsPath, settingsDoc);
    if created.Failure? {
      return EventReport([], Some(created.error));
    }
    var producer := created.value;
    if profileDoc.Failure? {
      return EventReport([], Some(profileDoc.error));
    }
    var listed := ActionList(profileDoc.value);
    if listed.Failure? {
      return EventReport([], Some(listed.error));
    }
    report := SendActions(producer, listed.value, encode, verdictAt);
  }

  /** The `for` loop of the route: one `send` per action, in list order,
      until one raises. */
  method SendActions(producer: Synapse, actions: seq<Value>,
                     encode: Value -> Utf8.Bytes, verdictAt: nat -> ProduceVerdict) returns (report: EventReport)
    ensures report == SendAll(actions, RouteStep(producer.settings, encode, verdictAt), 0)
  {
    ghost var step := RouteStep(producer.settings, encode, verdictAt);
    ghost var whole := SendAll(actions, step, 0);
    var sent: seq<Delivery> := [];
    var i := 0;
    while i < |actions|
      invariant i <= |actions|
      invariant Preceded(sent, SendAll(actions[i..], step, i)) == whole
    {
      SendAllStep(actions, step, i, sent);
      ghost var outcome := SendAction(producer.settings, actions[i], encode, verdictAt(i));
      assert step(actions[i], i) == outcome;
      var topic := Field(actions[i], "topic");
      if topic.Failure? {
        assert outcome == Failure(topic.error);
        return EventReport(sent, Some(topic.error));
      }
      var body := Field(actions[i], "action");
      if body.Failure? {
        assert outcome == Failure(body.error);
        return EventReport(sent, Some(body.error));
      }
      var delivered := producer.Send(topic.value, encode(body.value), verdictAt(i));
      assert outcome == delivered;
      if delivered.Failure? {
        return EventReport(sent, Some(delivered.error));
      }
      sent := sent + [delivered.value];
      i := i + 1;
    }
    assert actions[i..] == [];
    report := EventReport(sent, None);
  }
}

=== FILE: settings.dfy ===
/** The settings document of a synapse and the three things the core reads
    from it: the consumer configuration, the producer (connection)
    configuration and the physical name of a logical topic. */
module Settings {
  import opened Wrappers
  import opened Json

  /** The key under which the constructor echoes the settings path. */
  const SettingsFileKey := "settings_file"

  /** `settings['kafka'][section]`. */
  function Section(settings: Value, section: string): Result<Value, Error> {
    var kafka :- Field(settings, "kafka");
    Field(kafka, section)
  }

  /** Python's dict union `left | right` (PEP 584): every key of either
      operand, the right operand's value winning on a collision. */
  function Merge(left: map<string, Value>, right: map<string, Value>): (r: map<string, Value>)
    ensures r.Keys == left.Keys + right.Keys
    ensures forall k :: k in right ==> r[k] == right[k]
    ensures forall k :: k in left && k !in right ==> r[k] == left[k]
  {
    left + right
  }

  /** `settings['kafka']['connection'] | settings['kafka']['consumer']`:
      the connection section is looked up first, then the consumer section;
      `|` is defined here only between two objects. */
  function ConsumerConfig(settings: Value): Result<map<string, Value>, Error> {
    var connection :- Section(settings, "connection");
    var consumer :- Section(settings, "consumer");
    if connection.Object? && consumer.Object? then Success(Merge(connection.fields, consumer.fields))
    else Failure(TypeError)
  }

  /** The configuration a producer is built from: the connection section alone. */
  function ConnectionConfig(settings: Value): Result<Value, Error> {
    Section(settings, "connection")
  }

  /** `settings['kafka']['topics'][topic]`. */
  function ResolveTopic(settings: Value, topic: Value): Result<Value, Error> {
    var topics :- Section(settings, "topics");
    Subscript(topics, topic)
  }

  /** The consumer configuration has exactly the keys of both sections, and
      the consumer section's value on every key they share. */
  lemma ConsumerConfigMerges(settings: Value, connection: map<string, Value>, consumer: map<string, Value>)
    requires Section(settings, "connection") == Success(Object(connection))
    requires Section(settings, "consumer") == Success(Object(consumer))
    ensures ConsumerConfig(settings).Success?
    ensures ConsumerConfig(settings).value.Keys == connection.Keys + consumer.Keys
    ensures forall k :: k in consumer ==> ConsumerConfig(settings).value[k] == consumer[k]
    ensures forall k :: k in connection && k !in consumer ==> ConsumerConfig(settings).value[k] == connection[k]
  {
  }

  /** The consumer configuration fails exactly when a section is missing or
      is not an object, and a missing connection section is reported first. */
  lemma ConsumerConfigFails(settings: Value)
    ensures ConsumerConfig(settings).Failure? <==>
      Section(settings, "connection").Failure? || Section(settings, "consumer").Failure? ||
      !Section(settings, "connection").value.Object? || !Section(settings, "consumer").value.Object?
    ensures Section(settings, "connection").Failure? ==>
      ConsumerConfig(settings) == Failure(Section(settings, "connection").error)
    ensures Section(settings, "connection").Success? && Section(settings, "consumer").Failure? ==>
      ConsumerConfig(settings) == Failure(Section(settings, "consumer").error)
    ensures (Section(settings, "connection").Success? && Section(settings, "consumer").Success? &&
             !(Section(settings, "connection").value.Object? && Section(settings, "consumer").value.Object?)) ==>
      ConsumerConfig(settings) == Failure(TypeError)
  {
  }

  /** A declared logical name resolves to exactly its physical topic; an
      undeclared one is a KeyError naming it. */
  lemma ResolveDeclared(settings: Value, topics: map<string, Value>, name: string)
    requires Section(settings, "topics") == Success(Object(topics))
    ensures name in topics ==> ResolveTopic(settings, Str(name)) == Success(topics[name])
    ensures name !in topics ==> ResolveTopic(settings, Str(name)) == Failure(KeyError(Str(name)))
  {
  }

  /** Echoing the settings path into the document does not disturb any
      lookup under `kafka`. */
  lemma EchoKeepsSections(fields: map<string, Value>, path: string, section: string)
    ensures Section(Object(fields[SettingsFileKey := Str(path)]), section) == Section(Object(fields), section)
  {
  }
}

=== FILE: synapse.dfy ===
/** The `Synapse` class. `Listen`, `ProcessEvent`, `Reload` and `Stop`
    update its fields in place and are proved against the matching transition
    of module Machine; `Create` builds a fresh synapse from `Machine.Init`;
    `Send` changes nothing and is proved against `Producing.SendResult`;
    `PollLoop` is proved against `Polling.Run`. */
module Synapses {
  import opened Wrappers
  import opened Json
  import opened Settings
  import opened Polling
  import opened Machine
  import Producing
  import Utf8

  class Synapse {
    var settingsFile: string
    var settings: Value
    var consumerCfg: map<string, Value>
    var consumer: Option<ConsumerHandle>
    var closeConsumer: bool

    /** The fields, as a value. */
    function State(): SynapseState
      reads this
    {
      SynapseState(settingsFile, settings, consumerCfg, consumer, closeConsumer)
    }

    /** Field initialisation, once the settings are loaded and the consumer
        configuration merged (see Create). */
    constructor (settingsFile: string, settings: Value, consumerCfg: map<string, Value>)
      ensures State() == SynapseState(settingsFile, settings, consumerCfg, None, false)
    {
      this.settingsFile := settingsFile;
      this.settings := settings;
      this.consumerCfg := consumerCfg;
      this.consumer := None;
      this.closeConsumer := false;
    }

    /** `Synapse(settings_file)`, given what loading that file yields. */
    static method Create(settingsFile: string, loaded: Result<Value, Error>) returns (r: Result<Synapse, Error>)
      ensures r.Failure? ==> Init(settingsFile, loaded) == Failure(r.error)
      ensures r.Success? ==> fresh(r.value) && Init(settingsFile, loaded) == Success(r.value.State())
    {
      if loaded.Failure? {
        return Failure(loaded.error);
      }
      var doc := loaded.value;
      if !doc.Object? {
        return Failure(TypeError);
      }
      var settings := Object(doc.fields[SettingsFileKey := Str(settingsFile)]);
      var cfg := ConsumerConfig(settings);
      if cfg.Failure? {
        return Failure(cfg.error);
      }
      var synapse := new Synapse(settingsFile, settings, cfg.value);
      return Success(synapse);
    }

    /** `listen(topic)`, over the polls the broker returns: the consumer
        is built and stored before the topic lookup, which may raise. */
    method Listen(topic: string, polls: seq<PollOutcome>) returns (r: Result<LoopEnd, Error>)
      modifies this
      ensures (State(), r) == Listened(old(State()), topic, polls)
    {
      consumer := Some(ConsumerHandle(consumerCfg, None, 0, false));
      var physical := ResolveTopic(settings, Str(topic));
      if physical.Failure? {
        return Failure(physical.error);
      }
      consumer := Some(ConsumerHandle(consumerCfg, Some(physical.value), 0, false));
      var e := PollLoop(polls, physical.value);
      r := Success(e);
      ListenedResolved(old(State()), topic, polls);
    }

    /** The `while True` loop of `listen` on a subscribed consumer: the flag
        is read before every poll; once it is up the consumer is closed and
        the loop ends. */
    method PollLoop(polls: seq<PollOutcome>, ghost physical: Value) returns (end: LoopEnd)
      requires consumer == Some(ConsumerHandle(consumerCfg, Some(physical), 0, false))
      modifies this
      ensures end == Run(polls, old(closeConsumer), DefaultHook)
      ensures settingsFile == old(settingsFile) && settings == old(settings) && consumerCfg == old(consumerCfg)
      ensures consumer == Some(ConsumerHandle(consumerCfg, Some(physical), end.polled, end.exit == Exited))
      ensures closeConsumer == (end.exit == Exited)
    {
      ghost var whole := Run(polls, closeConsumer, DefaultHook);
      var polled: nat := 0;
      var dispatched: seq<Payload> := [];
      var logged: seq<string> := [];
      var exit := Horizon;
      while true
        invariant polled <= |polls|
        invariant settingsFile == old(settingsFile) && settings == old(settings) && consumerCfg == old(consumerCfg)
        invariant consumer == Some(ConsumerHandle(consumerCfg, Some(physical), polled, false))
        invariant Prefixed(polled, dispatched, logged, Run(polls[polled..], closeConsumer, DefaultHook)) == whole
        decreases |polls| - polled
      {
        if closeConsumer {
          exit := Exited;
          break;
        }
        if polled == |polls| {
          exit := Horizon;
          break;
        }
        var msg := polls[polled];
        Advance(polls, polled, dispatched, logged, DefaultHook);
        polled := polled + 1;
        consumer := Some(consumer.value.(polls := polled));
        match msg {
          case NoMsg =>
          case ErrMsg(e) =>
            logged := logged + [e];
          case Msg(value) =>
            dispatched := dispatched + [value];
            var raised := ProcessEvent(value);
            if raised {
              exit := Raised;
              break;
            }
        }
      }
      if closeConsumer {
        consumer := Some(consumer.value.(closed := true));
      }
      end := LoopEnd(exit, polled, dispatched, logged);
    }

    /** The base class's `process_event`: the payload is decoded (raising on
        an absent or malformed one) and printed, then `stop()` is called.
        `raised` says that the decode raised. */
    method ProcessEvent(value: Payload) returns (raised: bool)
      modifies this
      ensures raised <==> DefaultHook(value) == Raise
      ensures State() == if raised then old(State()) else StopState(old(State()))
    {
      if !Decodes(value) {
        return true;
      }
      Stop();
      return false;
    }

    /** `reload()`, given what re-reading `settings_file` yields; `failure`
        is the exception a failed load raises. */
    method Reload(loaded: Result<Value, Error>) returns (failure: Option<Error>)
      modifies this
      ensures State() == Reloaded(old(State()), loaded)
      ensures failure == if loaded.Failure? then Some(loaded.error) else None
    {
      if loaded.Failure? {
        return Some(loaded.error);
      }
      settings := loaded.value;
      return None;
    }

    /** `send(topic, event_bytes)`, given how `produce` ends. A fresh
        producer is built from the connection section on every call; the
        synapse itself is not changed. */
    method Send(topic: Value, payload: Utf8.Bytes, verdict: Producing.ProduceVerdict) returns (r: Result<Producing.Delivery, Error>)
      ensures r == Producing.SendResult(settings, topic, payload, verdict)
    {
      var connection := ConnectionConfig(settings);
      if connection.Failure? {
        return Failure(connection.error);
      }
      var physical := ResolveTopic(settings, topic);
      if physical.Failure? {
        return Failure(physical.error);
      }
      match verdict {
        case Enqueued => r := Success(Producing.Delivery(connection.value, physical.value, payload));
        case QueueFull => r := Failure(BufferError);
        case Refused => r := Failure(KafkaException);
      }
    }

    /** `stop()`. */
    method Stop()
      modifies this
      ensures State() == StopState(old(State()))
    {
      closeConsumer := true;
    }
  }
}

=== FILE: utf8.dfy ===
/** Strict UTF-8 well-formedness, as `bytes.decode('utf-8')` checks it:
    the byte sequences of section 4 of RFC 3629 (no overlong forms, no
    surrogates, nothing above U+10FFFF). */
module Utf8 {

  type Bytes = seq<bv8>

  predicate IsTail(b: bv8) {
    0x80 <= b <= 0xBF
  }

  /** Length of the well-formed character that starts `b`, or 0 when `b`
      does not start with one. */
  function LeadLength(b: Bytes): (n: nat)
    ensures n <= 4 && n <= |b|
    ensures n > 0 ==> |b| > 0
  {
    if |b| == 0 then 0
    else if b[0] <= 0x7F then 1
    else if 0xC2 <= b[0] <= 0xDF then
      if |b| >= 2 && IsTail(b[1]) then 2 else 0
    else if b[0] == 0xE0 then
      if |b| >= 3 && 0xA0 <= b[1] <= 0xBF && IsTail(b[2]) then 3 else 0
    else if 0xE1 <= b[0] <= 0xEC || 0xEE <= b[0] <= 0xEF then
      if |b| >= 3 && IsTail(b[1]) && IsTail(b[2]) then 3 else 0
    else if b[0] == 0xED then
      if |b| >= 3 && 0x80 <= b[1] <= 0x9F && IsTail(b[2]) then 3 else 0
    else if b[0] == 0xF0 then
      if |b| >= 4 && 0x90 <= b[1] <= 0xBF && IsTail(b[2]) && IsTail(b[3]) then 4 else 0
    else if 0xF1 <= b[0] <= 0xF3 then
      if |b| >= 4 && IsTail(b[1]) && IsTail(b[2]) && IsTail(b[3]) then 4 else 0
    else if b[0] == 0xF4 then
      if |b| >= 4 && 0x80 <= b[1] <= 0x8F && IsTail(b[2]) && IsTail(b[3]) then 4 else 0
    else 0
  }

  /** True when the whole of `b` is a sequence of well-formed characters. */
  predicate WellFormed(b: Bytes)
    decreases |b|
  {
    b == [] || (LeadLength(b) > 0 && WellFormed(b[LeadLength(b)..]))
  }

  /** Every ASCII byte string decodes. */
  lemma {:induction false} AsciiWellFormed(b: Bytes)
    requires forall i :: 0 <= i < |b| ==> b[i] <= 0x7F
    ensures WellFormed(b)
  {
    if b != [] {
      assert LeadLength(b) == 1;
      AsciiWellFormed(b[1..]);
    }
  }

  /** A string that starts with a continuation byte never decodes. */
  lemma StrayContinuationRejected(b: Bytes)
    requires b != [] && IsTail(b[0])
    ensures !WellFormed(b)
  {
  }
}

=== FILE: wrappers.dfy ===
/** Option and Result, the two failure-aware wrappers the model uses.
    Result's failure side stands for a Python exception raised by the core. */
module Wrappers {

  datatype Option<+T> = None | Some(value: T)

  datatype Result<+T, +E> = Success(value: T) | Failure(error: E) {

    predicate IsFailure() {
      Failure?
    }

    function PropagateFailure<U>(): Result<U, E>
      requires Failure?
    {
      Failure(error)
    }

    function Extract(): T
      requires Success?
    {
      value
    }
  }
}
